=== FILE: README.md ===
# Roadlet gameplay state logic, in Dafny

Roadlet is a set of Unity behaviour scripts for a 3-D open-world game. This project models
the discrete state logic inside four of them, with the engine's queries turned into inputs:

- **Road streaming** (`InfiniteRoadGenerator`, module `Road`): a map from segment index to
  segment is kept equal to the window `[floor(x / spacing) - behind, floor(x / spacing) + ahead]`
  around the followed target. Missing indices are spawned at `x = index * spacing` under the
  name `RoadSegment_<index>`. Indices outside the window are destroyed.
- **Rock scatter** (`InfiniteDesertRockScatter`, module `RockScatter`): the same reconcile
  runs on a square of chunk coordinates of radius `spawnRadiusInChunks` around the camera's
  chunk. The desired set is built by two nested loops and has `(2r+1)^2` coordinates. A new
  chunk is filled by `rocksPerChunk` placement attempts. Each attempt can miss the ground, hit
  an exclusion, pick a type with no prefab, or place one rock. The type is chosen by a
  cumulative-weight scan.
- **Telekinetic weapon swing** (`TelekineticWeaponController`, module `Weapon`): each
  `LateUpdate` toggles the hit effect, chooses the rotation speed, advances or resets the swing
  timer, computes the capped stretch target, and sweeps for hits. Each collider gets at most
  one clamped knockback impulse per swing.
- **Car enter/exit** (`EnterExitCar` with the state-bearing parts of `PlayerController`,
  module `Vehicle`): trigger callbacks fill the nearby-car slot. E enters the car and F leaves
  it. An invariant ties the two components, the camera target and the car scripts together.
  It also shows that the read of `currentCar` during an exit never meets a null car.

`Streaming` holds the reconcile shared by both streamers. `Common` holds `Option` (a nullable
reference, or a call that throws) and `Vec3`.

Engine calls become parameters. `Instantiate` and `Destroy` become map insertion and removal.
`Physics.Raycast`, `CheckSphere` and `SphereCastAll` become the `Attempt` flags and the hit
list of a `Frame`. `Random.value` becomes the `roll` of an attempt. Rigidbody presence is a
`hasBody` function. The weapon's frame movement is given as a distance. Floats are
mathematical reals.

## Model

| member | source | states |
|---|---|---|
| Streaming.RemoveOutside | Assets/Scripts/RoadGeneration.cs:67-76 | the removal pass over a snapshot of the keys keeps exactly the desired keys and hands back every other entry, unchanged, for destruction |
| Streaming.ReconcileIdempotent | Assets/Scripts/RoadGeneration.cs:61-76 | after a reconcile the keys are exactly the desired set, so a second reconcile with the same set spawns and removes nothing and returns the same map |
| Road.Window | Assets/Scripts/RoadGeneration.cs:54-58 | an index is in the window iff `floor(tx/spacing) - segmentsBehind <= i <= floor(tx/spacing) + segmentsAhead` |
| Road.CenterContainsTarget | Assets/Scripts/RoadGeneration.cs:54-55 | for positive spacing the centre index is the slot whose span `[c*spacing, (c+1)*spacing)` contains the target |
| Road.SegmentNameRoundTrip | Assets/Scripts/RoadGeneration.cs:85 | the index can be parsed back out of the name `RoadSegment_<index>`, including negative indices |
| Road.SegmentNamesDistinct | Assets/Scripts/RoadGeneration.cs:85 | two segments have the same name iff they have the same index |
| Road.SpawnSegment | Assets/Scripts/RoadGeneration.cs:79-87 | the segment for index i carries index i, sits at (i * segmentSpacing, originY, originZ) and is named `SegmentName(i)`, that is `RoadSegment_<i>`, which the two naming lemmas show is unique and parses back to i |
| Road.SpawnMissing | Assets/Scripts/RoadGeneration.cs:60-65 | after the spawn loop, every index of [start, end] is present, existing segments are untouched, and exactly the missing indices were spawned |
| Road.UpdateSegments | Assets/Scripts/RoadGeneration.cs:49-77 | with no target nothing changes; otherwise the keys are exactly the window, kept segments are not respawned, only missing indices are spawned, exactly the out-of-window entries are destroyed, and an update of a map already on the window is a no-op |
| Road.UpdateDependsOnlyOnWindow | Assets/Scripts/RoadGeneration.cs:61-87 | starting from a map whose segments were all spawned for their own keys, the result is the spawned segment of every window index, whatever the history |
| RockScatter.FirstReaching | Assets/DesertRockScatter.cs:163-170 | the scan returns the first entry whose running weight sum reaches r, or the last entry when none does |
| RockScatter.Pick | Assets/DesertRockScatter.cs:157-171 | the pick fails (the index -1 read throws) iff there are no rock types, and otherwise returns a valid index |
| RockScatter.PickWeightedEntry | Assets/DesertRockScatter.cs:157-171 | the two loops (total, then running sum) return the first entry whose cumulative weight is at least `Random.value * total`, else the last one, and fail on an empty list |
| RockScatter.PickReachesThreshold | Assets/DesertRockScatter.cs:159-170 | with non-negative weights and a roll in [0, 1], the chosen entry's cumulative weight reaches the threshold, so the fallback is never needed |
| RockScatter.ZeroWeightNeverPicked | Assets/DesertRockScatter.cs:163-167 | an entry of weight zero that is not the first is never chosen |
| RockScatter.PositiveWeightPickable | Assets/DesertRockScatter.cs:159-167 | every entry of positive weight is chosen by some roll in (0, 1] |
| RockScatter.AttemptOutcome | Assets/DesertRockScatter.cs:113-151 | an attempt places a rock only after a ground hit with no exclusion, and the rock's type is the weighted pick for the attempt's roll; past the two checks with a non-empty type list it places a rock iff the picked entry has a prefab (a null prefab skips the attempt); it throws iff it gets as far as the pick with an empty type list |
| RockScatter.SpawnRocks | Assets/DesertRockScatter.cs:111-152 | the list holds at most one rock per attempt, exactly the rocks of the attempts that place one, in attempt order; the fill fails iff some attempt throws |
| RockScatter.SpawnChunk | Assets/DesertRockScatter.cs:106-155 | a filled chunk holds, in attempt order, exactly the rocks placed by its rocksPerChunk attempts (none if it is negative), all of that chunk; it fails iff one of those attempts throws, which needs an empty type list |
| RockScatter.AddColumn | Assets/DesertRockScatter.cs:83-84 | the inner loop adds the whole column of 2r+1 new coordinates |
| RockScatter.DesiredChunks | Assets/DesertRockScatter.cs:80-84 | the desired set is exactly the coordinates within r of the centre on both axes, with (2r+1)^2 distinct members for r >= 0 |
| RockScatter.DestroyAll | Assets/DesertRockScatter.cs:97-101 | every rock of every removed chunk is destroyed, and nothing else is |
| RockScatter.SpawnMissing | Assets/DesertRockScatter.cs:86-91 | every desired chunk missing from the lookup gets its fill and existing chunks are untouched; the pass fails iff some missing chunk's fill throws |
| RockScatter.ReconcileChunks | Assets/DesertRockScatter.cs:86-103 | the lookup keys become exactly the desired set, kept chunks keep their rock lists, exactly the rocks of removed chunks are destroyed, and a lookup already on the desired set is left alone |
| RockScatter.UpdateChunks | Assets/DesertRockScatter.cs:70-104 | with no camera nothing changes; otherwise the lookup keys become the (2r+1)-square around `(floor(x/size), floor(z/size))`, with the reconcile guarantees above |
| Weapon.SwingExtra | Assets/Scripts/TelekineticWeaponController.cs:166-168 | the stretch target never exceeds maxExtraLength and equals speed * lengthMultiplier below the cap |
| Weapon.Knockback | Assets/Scripts/TelekineticWeaponController.cs:209-211 | the knockback lies in [minKnockback, maxKnockback] whenever that range is non-empty; it is the raw value (speed * knockbackMultiplier) when that is inside the range, minKnockback when the raw value is below it, and maxKnockback when the raw value is at least minKnockback and above maxKnockback |
| Weapon.SweepHits | Assets/Scripts/TelekineticWeaponController.cs:202-216 | every hit collider is recorded; exactly the newly hit colliders with a rigidbody receive an impulse, each once, none already recorded |
| Weapon.Sweep | Assets/Scripts/TelekineticWeaponController.cs:192-217 | a sweep shorter than Mathf.Epsilon does nothing; otherwise every hit collider is recorded and exactly the colliders not hit before in the swing that have a rigidbody get one clamped impulse each |
| Weapon.Step | Assets/Scripts/TelekineticWeaponController.cs:75-143 | with no instance nothing changes; the effect plays iff the button is held and the timer is below maxSwingDuration; the rotation speed follows the button; release resets the timer; holding past the limit freezes the timer and applies nothing; in the swing branch the stretch target is SwingExtra of the frame's speed, the frame's hits are added to the hit set (emptied first at a swing start) and exactly the new hits with a rigidbody get an impulse, each of magnitude Knockback for the frame; outside the swing branch no impulse is applied, no stretch target is set and the hit set is unchanged |
| Weapon.Init | Assets/Scripts/TelekineticWeaponController.cs:53-73 | after Start the instance exists iff a prefab is assigned, the hit effect is the instance's particle system (or the inspector's when there is no prefab), the rotation speed is the default, the timer zero and the hit set empty |
| Weapon.FirstSwingOneImpulseEach | Assets/Scripts/TelekineticWeaponController.cs:53-73 | from the state Start leaves, a first swing held over any frames gives no collider two impulses |
| Weapon.ReleaseWeapon | Assets/Scripts/TelekineticWeaponController.cs:219-223 | releasing removes the instance and changes nothing else |
| Weapon.OneImpulsePerSwing | Assets/Scripts/TelekineticWeaponController.cs:129-135 | over any run of held frames no collider receives two impulses, and once a swing is under way none of the already-hit colliders is hit again |
| Weapon.HeldPastMaxIsInert | Assets/Scripts/TelekineticWeaponController.cs:129-139 | holding the button once the timer reached maxSwingDuration applies no impulse and keeps the timer and hit set as they are |
| Weapon.ReleaseStartsFreshSwing | Assets/Scripts/TelekineticWeaponController.cs:129-138 | a released frame resets the timer, and the next pressed frame starts a swing whose hit set holds only that frame's hits |
| Vehicle.SetActive | Assets/Scripts/PlayerController.cs:127-131 | the player is in a car exactly when it is deactivated, and nothing else about it changes |
| Vehicle.OnTriggerStay | Assets/Scripts/PlayerController.cs:73-77 | a trigger tagged EnterCar offers its parent car; other tags change nothing |
| Vehicle.OnTriggerExit | Assets/Scripts/PlayerController.cs:78-82 | leaving a trigger tagged EnterCar clears the offered car; other tags change nothing |
| Vehicle.TrackMoveDir | Assets/Scripts/PlayerController.cs:45-48 | lastMoveDir becomes the movement direction only when its squared length exceeds 0.001 |
| Vehicle.PlayerUpdate | Assets/Scripts/PlayerController.cs:38-72 | while in a car nothing changes; on foot the player ends up in a car iff E was pressed with a car offered and the EnterExitCar script assigned, and that entry is exactly EnterCar on the offered car after the move-direction update |
| Vehicle.EnterCar | Assets/Scripts/EnterExitCar.cs:36-58 | the player is held and changed only by SetActive(false) (so it is in a car), the camera follows the car, the car becomes current, and all of its scripts are enabled with no other script touched |
| Vehicle.ExitCar | Assets/Scripts/EnterExitCar.cs:63-87 | with no held player nothing changes; otherwise the player is changed only by SetActive(true) and released, the camera follows it, the car's scripts are disabled with no other script touched; it throws iff a player is held with no current car |
| Vehicle.RigUpdate | Assets/Scripts/EnterExitCar.cs:24-31 | an exit happens only when in the car and F is pressed |
| Vehicle.Step | Assets/Scripts/PlayerController.cs:38-82 | a callback throws iff it is EnterExitCar's F press while in the car with a held player and no current car; a trigger callback changes only the offered car (set to the parent car, or cleared, for the EnterCar tag; nothing for other tags); a player frame in a car, or a rig frame without an exit, changes nothing |
| Vehicle.Init | Assets/Scripts/PlayerController.cs:7-26 | play starts on foot and visible, with no car offered, the camera on the player, EnterExitCar holding no player and no current car, and the scene's scripts enabled |
| Vehicle.InitEstablishesInv | Assets/Scripts/EnterExitCar.cs:10-11 | the starting state satisfies the protocol invariant |
| Vehicle.StepPreservesInv | Assets/Scripts/EnterExitCar.cs:36-87 | every callback keeps "player held ⇒ current car set", the agreement of both isInCar flags with the held player, the camera target and the car-script state, and never throws |
| Vehicle.RunPreservesInv | Assets/Scripts/EnterExitCar.cs:63-69 | no sequence of callbacks from an invariant state throws, so the read of currentCar on exit is always safe |
| Vehicle.ExitCarIdempotent | Assets/Scripts/EnterExitCar.cs:66-85 | a second ExitCar after an exit is a no-op |
| Vehicle.EnterThenExit | Assets/Scripts/EnterExitCar.cs:36-87 | entering from foot and exiting restores the player and camera, disables that car's scripts, and leaves every other script as it was |

## Left out

- Floating point: all quantities are mathematical reals. Rounding, infinities and NaN are not
  modelled. For example, float rounding of `Random.value * total` could reach the last-entry
  fallback of the weighted pick.
- Road.UpdateSegments: requires segmentSpacing to be non-zero. In the source a zero spacing
  divides by zero: the quotient is an infinity, or NaN when the target is at x = 0, and that
  value is then floored to an int.
- RockScatter.UpdateChunks: requires chunkSize to be non-zero, for the same reason.
- Road.UpdateSegments: does not model 32-bit wrap-around of `centerIndex - segmentsBehind` or
  `centerIndex + segmentsAhead`. It also does not model the undefined `FloorToInt` of huge
  positions. Indices are unbounded integers.
- RockScatter.UpdateChunks: does not model 32-bit wrap-around of `center.x + dx`,
  `center.y + dz` or `-spawnRadiusInChunks`. It also does not model the undefined
  `FloorToInt` of huge camera positions. Coordinates and the radius are unbounded integers.
- Weapon.Step: assumes that the scene has a camera tagged MainCamera. The controller caches
  `Camera.main` in Start (TelekineticWeaponController.cs:55). With `useMouseDirection` set
  and no main camera, every LateUpdate throws at line 150. That happens after the effect
  toggle and the rotation speed, but before the swing branch, so the timer would never
  advance and no impulse would ever be applied.
- Weapon.Step: requires `Time.deltaTime > 0`. With a paused clock (delta time 0), the speed
  divisions give infinity or NaN.
- RockScatter.UpdateChunks: when a chunk fill throws, the lookup is left partly updated in an
  order set by the hash set. The model only reports the failure (None).
- RockScatter.SpawnChunk: each attempt's engine answers come from a function of (chunk,
  attempt). The source draws from one global random stream, and the order of draws is not
  modelled.
- RockScatter.SpawnChunk: rock position, yaw, random scale and the renderer-height lift are
  transform math and are not modelled. A rock records its chunk, attempt, type index and
  prefab.
- Weapon.Step: the hover direction, position `Lerp`, rotation `Slerp`/`LookRotation` and the
  scale `Lerp` toward the stretch target (and `RetractScale`) are left out. The model exposes
  the stretch target and takes the distance moved as an input.
- Weapon.Sweep: the impulse direction is not modelled, only its magnitude. Particle playback
  is reduced to a playing flag.
- Vehicle.ExitCar: placing the player beside the car (EnterExitCar.cs:69) is transform math
  and is left out.
- Vehicle.PlayerUpdate: assumes that the scene has a camera tagged MainCamera. With a torso
  assigned and no main camera, `AimTorsoAtMouse` throws at PlayerController.cs:90, before the
  E check at line 56, so the player could never enter a car.
- Vehicle.PlayerUpdate: translation, torso aim and torso bob are left out. The movement
  direction arrives already normalised.
- Vehicle.EnterCar: assumes that EnterExitCar's inspector field `cameraFollow`
  (EnterExitCar.cs:7) is assigned. If it is not, the source has already stored and hidden the
  player when line 43 throws, before `currentCar` is set at line 47. `isInCar` then stays
  false, so F never exits. An `ExitCar` call would throw at line 69 reading the null
  `currentCar`: this is the held-player, null-car state that the invariant rules out.
  Vehicle.RunPreservesInv's "never throws" rests on this assumption.
- Vehicle.OnTriggerStay: assumes that a trigger tagged EnterCar has a parent object. Without
  one the source throws.
- Vehicle.Step: trigger callbacks are delivered whether or not the player is active. The
  engine does not deliver them to an inactive object, so the model allows more behaviours
  than can occur.
- Vehicle.Init: assumes that the camera starts on the player (CameraScript.cs:56-59 targets
  its `player` field). It also assumes that EnterExitCar's public `player` field starts
  unassigned. If that field is set in the inspector, the invariant can fail and an `ExitCar`
  call could throw.
- Assets/Scripts/CameraScript.cs (mouse and scroll smoothing, zoom): left out. Only
  `SetTarget` survives, as the `camera` field of the vehicle world.
- Start methods: a missing road prefab disables the road generator. The road generator and
  the rock scatter fall back to `Camera.main`. The weapon instance is created at start. These
  become the initial parameters (`Option` target or camera, `hasInstance`). The unused
  `force` flag of `UpdateChunks` is dropped.
- Logging (`print`, `Debug.Log*`), gizmo drawing (`OnDrawGizmosSelected`) and inspector
  attributes are left out.

=== FILE: common.dfy ===
/** Small shared vocabulary: an optional value stands for a C# reference that may be null,
    and `None` results stand for a call that throws. */
module Common {

  datatype Option<+T> = None | Some(value: T)

  /** A point or direction in world space; only the components the model compares are read. */
  datatype Vec3 = Vec3(x: real, y: real, z: real)

  /** lo <= i <= hi as a function call, so that a comprehension over an integer range has a
      term to trigger on; the bare comparison is still written beside it, because that is the
      form from which Dafny reads the range's bounds. */
  predicate Between(lo: int, i: int, hi: int)
  {
    lo <= i <= hi
  }

  /** The closed integer interval [lo, hi] (empty when lo > hi). */
  function Interval(lo: int, hi: int): (s: set<int>)
    ensures forall i :: i in s <==> lo <= i <= hi
  {
    set i | lo <= i <= hi && Between(lo, i, hi)
  }

  function SqrMagnitude(v: Vec3): (sq: real)
  {
    v.x * v.x + v.y * v.y + v.z * v.z
  }
}

=== FILE: road.dfy ===
/** The road streamer of Assets/Scripts/RoadGeneration.cs: segments along the X axis are
    kept exactly for the index window around the followed target. */
module Road {
  import opened Common
  import Streaming

  /** Inspector settings plus the generator's own Y and Z position (segments inherit them). */
  datatype Config = Config(segmentSpacing: real, segmentsAhead: int, segmentsBehind: int,
                           originY: real, originZ: real)

  /** A spawned road segment: its index, where it was placed and the name it was given. */
  datatype Segment = Segment(index: int, position: Vec3, name: string)

  // ---------------------------------------------------------------- naming

  const NamePrefix := "RoadSegment_"

  function DigitChar(d: nat): (c: char)
    requires d < 10
  {
    "0123456789"[d]
  }

  predicate IsDigit(c: char)
  {
    '0' <= c <= '9'
  }

  function DigitValue(c: char): (v: nat)
    requires IsDigit(c)
  {
    (c as int - '0' as int) as nat
  }

  /** Decimal digits of `n`, most significant first, without leading zeros. */
  function NatToDigits(n: nat): (s: string)
    ensures |s| > 0
    ensures forall k :: 0 <= k < |s| ==> IsDigit(s[k])
  {
    if n < 10 then [DigitChar(n)] else NatToDigits(n / 10) + [DigitChar(n % 10)]
  }

  /** The C# rendering of an int in an interpolated string. The current culture formats it;
      the model assumes one whose negative sign is an ASCII hyphen-minus and digits are 0-9. */
  function IntToString(i: int): (s: string)
  {
    if i < 0 then "-" + NatToDigits(-i) else NatToDigits(i)
  }

  function DigitsToNat(s: string): (n: nat)
    requires forall k :: 0 <= k < |s| ==> IsDigit(s[k])
  {
    if |s| == 0 then 0 else DigitsToNat(s[..|s| - 1]) * 10 + DigitValue(s[|s| - 1])
  }

  function ParseInt(s: string): (r: Option<int>)
  {
    if |s| > 0 && s[0] == '-' then
      if |s| > 1 && forall k :: 1 <= k < |s| ==> IsDigit(s[k]) then
        var magnitude: int := DigitsToNat(s[1..]);
        Some(-magnitude)
      else None
    else if |s| > 0 && forall k :: 0 <= k < |s| ==> IsDigit(s[k]) then Some(DigitsToNat(s))
    else None
  }

  /** The name given to the segment for `index`. */
  function SegmentName(index: int): (name: string)
  {
    NamePrefix + IntToString(index)
  }

  /** Reads a segment index back out of a segment name. */
  function ParseSegmentName(name: string): (r: Option<int>)
  {
    if |name| >= |NamePrefix| && name[..|NamePrefix|] == NamePrefix then ParseInt(name[|NamePrefix|..])
    else None
  }

  lemma {:induction false} DigitsRoundTrip(n: nat)
    ensures DigitsToNat(NatToDigits(n)) == n
  {
    var s := NatToDigits(n);
    if n < 10 {
      assert s[..|s| - 1] == [];
    } else {
      DigitsRoundTrip(n / 10);
      assert s[..|s| - 1] == NatToDigits(n / 10);
    }
  }

  lemma {:induction false} NonNegativeRoundTrip(n: nat)
    ensures ParseInt(NatToDigits(n)) == Some(n)
  {
    var d := NatToDigits(n);
    assert d[0] != '-' by {
      assert IsDigit(d[0]);
    }
    DigitsRoundTrip(n);
  }

  lemma {:induction false} NegativeRoundTrip(i: int)
    requires i < 0
    ensures ParseInt("-" + NatToDigits(-i)) == Some(i)
  {
    var n: nat := -i;
    var d := NatToDigits(n);
    var t := "-" + d;
    assert |t| > 1 && t[0] == '-';
    assert t[1..] == d;
    forall k | 1 <= k < |t|
      ensures IsDigit(t[k])
    {
      assert t[k] == d[k - 1];
    }
    DigitsRoundTrip(n);
    assert DigitsToNat(t[1..]) == n;
  }

  lemma {:induction false} IntRoundTrip(i: int)
    ensures ParseInt(IntToString(i)) == Some(i)
  {
    if i < 0 {
      NegativeRoundTrip(i);
      assert IntToString(i) == "-" + NatToDigits(-i);
    } else {
      var n: nat := i;
      NonNegativeRoundTrip(n);
      assert IntToString(i) == NatToDigits(n);
    }
  }

  /** A segment's name determines its index, so no two segments share a name. */
  lemma {:induction false} SegmentNameRoundTrip(index: int)
    ensures ParseSegmentName(SegmentName(index)) == Some(index)
  {
    var name := SegmentName(index);
    assert name[..|NamePrefix|] == NamePrefix;
    assert name[|NamePrefix|..] == IntToString(index);
    IntRoundTrip(index);
  }

  lemma SegmentNamesDistinct(i: int, j: int)
    ensures SegmentName(i) == SegmentName(j) <==> i == j
  {
    if SegmentName(i) == SegmentName(j) {
      SegmentNameRoundTrip(i);
      SegmentNameRoundTrip(j);
    }
  }

  // ---------------------------------------------------------------- window

  function CenterIndex(cfg: Config, tx: real): (c: int)
    requires cfg.segmentSpacing != 0.0
  {
    (tx / cfg.segmentSpacing).Floor
  }

  function WindowStart(cfg: Config, tx: real): (start: int)
    requires cfg.segmentSpacing != 0.0
  {
    CenterIndex(cfg, tx) - cfg.segmentsBehind
  }

  function WindowEnd(cfg: Config, tx: real): (end: int)
    requires cfg.segmentSpacing != 0.0
  {
    CenterIndex(cfg, tx) + cfg.segmentsAhead
  }

  /** The indices that must be present while the target stands at `tx`. */
  function Window(cfg: Config, tx: real): (w: set<int>)
    requires cfg.segmentSpacing != 0.0
    ensures forall i :: i in w <==> WindowStart(cfg, tx) <= i <= WindowEnd(cfg, tx)
  {
    Interval(WindowStart(cfg, tx), WindowEnd(cfg, tx))
  }

  /** The centre index is the segment slot containing the target: its start is at or behind tx. */
  lemma CenterContainsTarget(cfg: Config, tx: real)
    requires cfg.segmentSpacing > 0.0
    ensures CenterIndex(cfg, tx) as real * cfg.segmentSpacing <= tx
    ensures tx < (CenterIndex(cfg, tx) + 1) as real * cfg.segmentSpacing
  {
    var sp := cfg.segmentSpacing;
    var q := tx / sp;
    var c := CenterIndex(cfg, tx);
    var lo := c as real;
    var hi := (c + 1) as real;
    assert lo <= q < hi;
    assert q * sp == tx;
    assert (hi - q) * sp > 0.0;
    assert hi * sp - q * sp == (hi - q) * sp;
    assert (q - lo) * sp >= 0.0;
    assert q * sp - lo * sp == (q - lo) * sp;
    assert tx < hi * sp;
    assert hi == (CenterIndex(cfg, tx) + 1) as real;
  }

  // ---------------------------------------------------------------- spawning

  /** The segment spawned for `index`. */
  function SpawnSegment(cfg: Config, index: int): (s: Segment)
    ensures s.index == index
    ensures s.position == Vec3(index as real * cfg.segmentSpacing, cfg.originY, cfg.originZ)
    ensures s.name == SegmentName(index)
  {
    Segment(index, Vec3(index as real * cfg.segmentSpacing, cfg.originY, cfg.originZ), SegmentName(index))
  }

  /** Every stored segment is the one spawned for its key. */
  ghost predicate WellFormed(cfg: Config, segments: map<int, Segment>)
  {
    forall i :: i in segments ==> segments[i] == SpawnSegment(cfg, i)
  }

  /** The spawn loop: every index of [start, end] missing from the map gets its segment. */
  method SpawnMissing(cfg: Config, segments: map<int, Segment>, start: int, end: int)
    returns (grown: map<int, Segment>, spawned: set<int>)
    ensures grown.Keys == segments.Keys + Interval(start, end)
    ensures spawned == Interval(start, end) - segments.Keys
    ensures forall j :: j in segments ==> grown[j] == segments[j]
    ensures forall j :: j in spawned ==> grown[j] == SpawnSegment(cfg, j)
  {
    grown := segments;
    spawned := {};
    var i := start;
    while i <= end
      invariant start <= i <= if start <= end then end + 1 else start
      invariant grown.Keys == segments.Keys + Interval(start, i - 1)
      invariant spawned == Interval(start, i - 1) - segments.Keys
      invariant forall j :: j in segments ==> grown[j] == segments[j]
      invariant forall j :: j in spawned ==> grown[j] == SpawnSegment(cfg, j)
      decreases end - i
    {
      assert Interval(start, i) == Interval(start, i - 1) + {i};
      if i !in grown {
        grown := grown[i := SpawnSegment(cfg, i)];
        spawned := spawned + {i};
      }
      i := i + 1;
    }
  }

  /** One UpdateSegments call. `target` is the followed transform's X position, or None when
      there is no follow target. Returns the new map, the indices spawned and the entries destroyed. */
  method UpdateSegments(cfg: Config, segments: map<int, Segment>, target: Option<real>)
    returns (r: map<int, Segment>, spawned: set<int>, destroyed: map<int, Segment>)
    requires cfg.segmentSpacing != 0.0
    ensures target.None? ==> r == segments && spawned == {} && destroyed == map[]
    ensures target.Some? ==> r.Keys == Window(cfg, target.value)
    ensures target.Some? ==> spawned == Window(cfg, target.value) - segments.Keys
    ensures target.Some? ==> destroyed.Keys == segments.Keys - Window(cfg, target.value)
    ensures forall i :: i in destroyed ==> i in segments && destroyed[i] == segments[i]
    ensures forall i :: i in segments && i in r ==> r[i] == segments[i]
    ensures forall i :: i in spawned ==> i in r && r[i] == SpawnSegment(cfg, i)
    ensures target.Some? ==> r == Streaming.Reconcile(segments, Window(cfg, target.value), i => SpawnSegment(cfg, i))
  {
    if target.None? {
      return segments, {}, map[];
    }
    var start := WindowStart(cfg, target.value);
    var end := WindowEnd(cfg, target.value);
    var w := Window(cfg, target.value);
    var grown;
    grown, spawned := SpawnMissing(cfg, segments, start, end);
    assert grown.Keys == segments.Keys + w;
    r, destroyed := Streaming.RemoveOutside(grown, w);
    ghost var goal := Streaming.Reconcile(segments, w, j => SpawnSegment(cfg, j));
    assert r.Keys == goal.Keys;
    forall j | j in r
      ensures r[j] == goal[j]
    {
      if j !in segments {
        assert j in spawned;
      }
    }
  }

  /** The segment map is a function of the window alone: an update of a well-formed map
      yields the map holding exactly the spawned segment of every index in the window. */
  lemma UpdateDependsOnlyOnWindow(cfg: Config, segments: map<int, Segment>, tx: real)
    requires cfg.segmentSpacing != 0.0
    requires WellFormed(cfg, segments)
    ensures Streaming.Reconcile(segments, Window(cfg, tx), i => SpawnSegment(cfg, i))
         == map i | i in Window(cfg, tx) :: SpawnSegment(cfg, i)
  {
  }
}

=== FILE: rock_scatter.dfy ===
/** The desert rock scatter of Assets/DesertRockScatter.cs: square chunks of rocks are kept
    exactly for the chunks within a radius of the camera's chunk, and each new chunk is filled
    by a fixed number of placement attempts that pick a rock type by weight. */
module RockScatter {
  import opened Common
  import Streaming

  type PrefabId = nat

  /** One configured rock type; a missing prefab is a null reference in the inspector. */
  datatype RockEntry = RockEntry(prefab: Option<PrefabId>, weight: real, depthOffset: real)

  /** Integer chunk coordinates (a Vector2Int: x and the world z). */
  datatype Coord = Coord(x: int, z: int)

  datatype Config = Config(rockTypes: seq<RockEntry>, rocksPerChunk: int, chunkSize: real, spawnRadiusInChunks: int)

  /** What the engine answered for one placement attempt: whether the downward ray hit the
      desert ground, whether the exclusion sphere at the hit point touched anything, and the
      uniform roll in [0, 1] that drives the weighted pick. */
  datatype Attempt = Attempt(groundHit: bool, excluded: bool, roll: real)

  /** A spawned rock, identified by its chunk and by the attempt that placed it. */
  datatype Rock = Rock(chunk: Coord, attempt: nat, entry: nat, prefab: PrefabId)

  // ---------------------------------------------------------------- weighted pick

  /** Sum of the first k weights, accumulated left to right as the source does. */
  function CumulativeWeight(types: seq<RockEntry>, k: nat): (sum: real)
    requires k <= |types|
  {
    if k == 0 then 0.0 else CumulativeWeight(types, k - 1) + types[k - 1].weight
  }

  function TotalWeight(types: seq<RockEntry>): (total: real)
  {
    CumulativeWeight(types, |types|)
  }

  /** The threshold r = Random.value * total that the scan compares against. */
  function Threshold(types: seq<RockEntry>, u: real): (r: real)
  {
    u * TotalWeight(types)
  }

  /** Entry k is accepted by threshold r: r is at most the running sum including entry k. */
  predicate Reaches(types: seq<RockEntry>, r: real, k: nat)
    requires k < |types|
  {
    r <= CumulativeWeight(types, k + 1)
  }

  predicate NonNegativeWeights(types: seq<RockEntry>)
  {
    forall k :: 0 <= k < |types| ==> types[k].weight >= 0.0
  }

  /** The scan from entry j on: the first entry that reaches r, else the last entry. */
  function FirstReaching(types: seq<RockEntry>, r: real, j: nat): (k: nat)
    requires 0 < |types| && j <= |types|
    ensures (j <= k < |types| && Reaches(types, r, k))
            || (k == |types| - 1 && forall i :: j <= i < |types| ==> !Reaches(types, r, i))
    ensures k < |types|
    ensures forall i :: j <= i < k ==> !Reaches(types, r, i)
    ensures Reaches(types, r, k) || forall i :: j <= i < |types| ==> !Reaches(types, r, i)
    decreases |types| - j
  {
    if j == |types| then |types| - 1
    else if r <= CumulativeWeight(types, j + 1) then j
    else FirstReaching(types, r, j + 1)
  }

  /** PickWeightedEntry as a value: the index chosen for roll u (Random.value), or None when
      there are no rock types, where the fallback read of index -1 throws. */
  function Pick(types: seq<RockEntry>, u: real): (k: Option<nat>)
    ensures k.None? <==> |types| == 0
    ensures k.Some? ==> k.value < |types|
  {
    if |types| == 0 then None else Some(FirstReaching(types, Threshold(types, u), 0))
  }

  /** The two loops of PickWeightedEntry: sum the weights, then scan the running sum. */
  method PickWeightedEntry(types: seq<RockEntry>, u: real) returns (k: Option<nat>)
    ensures k.None? <==> |types| == 0
    ensures k.Some? ==> k.value < |types|
    ensures k.Some? ==> forall i :: 0 <= i < k.value ==> !Reaches(types, Threshold(types, u), i)
    ensures k.Some? ==> Reaches(types, Threshold(types, u), k.value)
                        || (k.value == |types| - 1 && forall i :: 0 <= i < |types| ==> !Reaches(types, Threshold(types, u), i))
    ensures k == Pick(types, u)
  {
    var total := 0.0;
    var i := 0;
    while i < |types|
      invariant 0 <= i <= |types|
      invariant total == CumulativeWeight(types, i)
    {
      total := total + types[i].weight;
      i := i + 1;
    }
    var r := u * total;
    assert r == Threshold(types, u);
    var acc := 0.0;
    var j := 0;
    while j < |types|
      invariant 0 <= j <= |types|
      invariant acc == CumulativeWeight(types, j)
      invariant forall i :: 0 <= i < j ==> !Reaches(types, r, i)
      invariant |types| > 0 ==> FirstReaching(types, r, 0) == FirstReaching(types, r, j)
    {
      acc := acc + types[j].weight;
      if r <= acc {
        return Some(j);
      }
      j := j + 1;
    }
    if |types| == 0 {
      return None;
    }
    return Some(|types| - 1);
  }

  lemma {:induction false} CumulativeMonotone(types: seq<RockEntry>, a: nat, b: nat)
    requires NonNegativeWeights(types)
    requires a <= b <= |types|
    ensures CumulativeWeight(types, a) <= CumulativeWeight(types, b)
    decreases b - a
  {
    if a < b {
      CumulativeMonotone(types, a, b - 1);
    }
  }

  /** With non-negative weights and a roll in [0, 1] the scan always finds an entry that
      reaches the threshold, so the fallback to the last entry is never taken for its own sake. */
  lemma PickReachesThreshold(types: seq<RockEntry>, u: real)
    requires NonNegativeWeights(types)
    requires 0.0 <= u <= 1.0
    requires |types| > 0
    ensures Reaches(types, Threshold(types, u), Pick(types, u).value)
  {
    var t := TotalWeight(types);
    CumulativeMonotone(types, 0, |types|);
    assert u * t <= t by {
      assert (1.0 - u) * t >= 0.0;
    }
    assert Reaches(types, Threshold(types, u), |types| - 1);
  }

  /** An entry of weight zero after the first is never chosen. */
  lemma ZeroWeightNeverPicked(types: seq<RockEntry>, u: real, k: nat)
    requires NonNegativeWeights(types)
    requires 0.0 <= u <= 1.0
    requires 0 < k < |types|
    requires types[k].weight == 0.0
    ensures Pick(types, u) != Some(k)
  {
    PickReachesThreshold(types, u);
    var r := Threshold(types, u);
    assert CumulativeWeight(types, k + 1) == CumulativeWeight(types, k);
    assert Reaches(types, r, k) ==> Reaches(types, r, k - 1);
  }

  /** Every entry of positive weight is chosen by some roll in [0, 1]: the roll that puts the
      threshold exactly at that entry's running sum. */
  lemma PositiveWeightPickable(types: seq<RockEntry>, k: nat)
    requires NonNegativeWeights(types)
    requires k < |types|
    requires types[k].weight > 0.0
    ensures TotalWeight(types) > 0.0
    ensures 0.0 < CumulativeWeight(types, k + 1) / TotalWeight(types) <= 1.0
    ensures Pick(types, CumulativeWeight(types, k + 1) / TotalWeight(types)) == Some(k)
  {
    var t := TotalWeight(types);
    var ck := CumulativeWeight(types, k + 1);
    PositiveRunningSum(types, k);
    DivBounds(ck, t);
    var u := ck / t;
    assert Threshold(types, u) == ck;
    EarlierEntriesFallShort(types, k, ck);
    FirstReachingUnique(types, ck, k);
    assert Pick(types, u) == Some(FirstReaching(types, ck, 0));
  }

  /** The running sum through a positive-weight entry is positive and at most the total. */
  lemma PositiveRunningSum(types: seq<RockEntry>, k: nat)
    requires NonNegativeWeights(types)
    requires k < |types|
    requires types[k].weight > 0.0
    ensures 0.0 < CumulativeWeight(types, k + 1) <= TotalWeight(types)
  {
    CumulativeMonotone(types, 0, k);
    CumulativeMonotone(types, k + 1, |types|);
  }

  /** No entry before k reaches the running sum through entry k when entry k has positive weight. */
  lemma EarlierEntriesFallShort(types: seq<RockEntry>, k: nat, r: real)
    requires NonNegativeWeights(types)
    requires k < |types|
    requires types[k].weight > 0.0
    requires r == CumulativeWeight(types, k + 1)
    ensures forall i :: 0 <= i < k ==> !Reaches(types, r, i)
  {
    forall i | 0 <= i < k
      ensures !Reaches(types, r, i)
    {
      CumulativeMonotone(types, i + 1, k);
    }
  }

  lemma DivBounds(a: real, b: real)
    requires 0.0 < a <= b
    ensures 0.0 < a / b <= 1.0
    ensures a / b * b == a
  {
  }

  /** The scan's answer is determined: an entry that reaches r with no earlier one reaching it. */
  lemma FirstReachingUnique(types: seq<RockEntry>, r: real, k: nat)
    requires k < |types|
    requires Reaches(types, r, k)
    requires forall i :: 0 <= i < k ==> !Reaches(types, r, i)
    ensures FirstReaching(types, r, 0) == k
  {
    var p := FirstReaching(types, r, 0);
    assert !(p < k);
    assert Reaches(types, r, p);
  }

  // ---------------------------------------------------------------- filling a chunk

  datatype Outcome = Skip | Place(rock: Rock) | Throw

  /** What attempt i of chunk c does: a ground miss or an exclusion hit skips it, a picked
      entry with no prefab skips it, an empty type list throws, otherwise one rock is placed. */
  function AttemptOutcome(cfg: Config, draws: (Coord, nat) -> Attempt, c: Coord, i: nat): (o: Outcome)
    ensures o.Place? ==> o.rock.chunk == c && o.rock.attempt == i
    ensures o.Place? ==> draws(c, i).groundHit && !draws(c, i).excluded
    ensures o.Place? ==> o.rock.entry < |cfg.rockTypes| && cfg.rockTypes[o.rock.entry].prefab == Some(o.rock.prefab)
    ensures o.Place? ==> Pick(cfg.rockTypes, draws(c, i).roll) == Some(o.rock.entry)
    ensures o.Throw? <==> draws(c, i).groundHit && !draws(c, i).excluded && |cfg.rockTypes| == 0
    ensures draws(c, i).groundHit && !draws(c, i).excluded && |cfg.rockTypes| > 0 ==>
              (o.Place? <==> cfg.rockTypes[Pick(cfg.rockTypes, draws(c, i).roll).value].prefab.Some?)
  {
    var a := draws(c, i);
    if !a.groundHit then Skip
    else if a.excluded then Skip
    else match Pick(cfg.rockTypes, a.roll)
      case None => Throw
      case Some(k) =>
        match cfg.rockTypes[k].prefab
        case None => Skip
        case Some(p) => Place(Rock(c, i, k, p))
  }

  /** The rocks of the first n attempts for chunk c, or None if one of them threw. */
  function SpawnRocks(cfg: Config, draws: (Coord, nat) -> Attempt, c: Coord, n: nat): (r: Option<seq<Rock>>)
    ensures r.None? <==> exists i :: 0 <= i < n && AttemptOutcome(cfg, draws, c, i).Throw?
    ensures r.Some? ==> |r.value| <= n
    ensures r.Some? ==> forall rk :: rk in r.value ==> rk.attempt < n && AttemptOutcome(cfg, draws, c, rk.attempt) == Place(rk)
    ensures r.Some? ==> forall i :: 0 <= i < n && AttemptOutcome(cfg, draws, c, i).Place? ==> AttemptOutcome(cfg, draws, c, i).rock in r.value
    ensures r.Some? ==> forall a, b :: 0 <= a < b < |r.value| ==> r.value[a].attempt < r.value[b].attempt
  {
    if n == 0 then Some([])
    else match SpawnRocks(cfg, draws, c, n - 1)
      case None => None
      case Some(rocks) =>
        match AttemptOutcome(cfg, draws, c, n - 1)
        case Throw => None
        case Skip => Some(rocks)
        case Place(rk) => Some(rocks + [rk])
  }

  /** The number of attempts the `for (i = 0; i < rocksPerChunk; i++)` loop makes. */
  function AttemptCount(cfg: Config): (n: nat)
  {
    if cfg.rocksPerChunk < 0 then 0 else cfg.rocksPerChunk
  }

  /** SpawnChunk: one rock for each of the AttemptCount attempts that places one, in order. */
  function SpawnChunk(cfg: Config, draws: (Coord, nat) -> Attempt, c: Coord): (r: Option<seq<Rock>>)
    ensures r.Some? ==> |r.value| <= AttemptCount(cfg)
    ensures r.Some? ==> forall rk :: rk in r.value ==> rk.chunk == c
    ensures r.None? <==> exists i :: 0 <= i < AttemptCount(cfg) && AttemptOutcome(cfg, draws, c, i).Throw?
    ensures r.None? ==> |cfg.rockTypes| == 0
    ensures r.Some? ==> forall rk :: rk in r.value ==>
              rk.attempt < AttemptCount(cfg) && AttemptOutcome(cfg, draws, c, rk.attempt) == Place(rk)
    ensures r.Some? ==> forall i :: 0 <= i < AttemptCount(cfg) && AttemptOutcome(cfg, draws, c, i).Place? ==>
              AttemptOutcome(cfg, draws, c, i).rock in r.value
    ensures r.Some? ==> forall a, b :: 0 <= a < b < |r.value| ==> r.value[a].attempt < r.value[b].attempt
  {
    SpawnRocks(cfg, draws, c, AttemptCount(cfg))
  }

  // ---------------------------------------------------------------- the chunk window

  function CenterChunk(cfg: Config, camera: Vec3): (c: Coord)
    requires cfg.chunkSize != 0.0
  {
    Coord((camera.x / cfg.chunkSize).Floor, (camera.z / cfg.chunkSize).Floor)
  }

  predicate InBlock(c: Coord, xlo: int, xhi: int, zlo: int, zhi: int)
  {
    xlo <= c.x <= xhi && zlo <= c.z <= zhi
  }

  /** All coordinates with x in [xlo, xhi] and z in [zlo, zhi]. */
  function Block(xlo: int, xhi: int, zlo: int, zhi: int): (s: set<Coord>)
    ensures forall c :: c in s <==> InBlock(c, xlo, xhi, zlo, zhi)
  {
    var s := set x, z | xlo <= x <= xhi && zlo <= z <= zhi :: Coord(x, z);
    assert forall c: Coord :: InBlock(c, xlo, xhi, zlo, zhi) ==> Coord(c.x, c.z) in s;
    s
  }

  /** The chunks that must exist around `center`. */
  function Square(center: Coord, radius: int): (s: set<Coord>)
  {
    Block(center.x - radius, center.x + radius, center.z - radius, center.z + radius)
  }

  /** The inner loop of the desired-set construction: the coordinates (x, zc + dz) for dz from
      -radius to radius are added to a set that holds no coordinate of column x yet. */
  method AddColumn(desired: set<Coord>, x: int, zc: int, radius: int) returns (out: set<Coord>)
    requires radius >= 0
    requires forall c :: c in desired ==> c.x != x
    ensures forall c :: c in out <==> c in desired || InBlock(c, x, x, zc - radius, zc + radius)
    ensures |out| == |desired| + (2 * radius + 1)
  {
    out := desired;
    var dz := -radius;
    while dz <= radius
      invariant -radius <= dz <= radius + 1
      invariant forall c :: c in out <==> c in desired || InBlock(c, x, x, zc - radius, zc + dz - 1)
      invariant |out| == |desired| + (dz + radius)
      decreases radius - dz
    {
      var c := Coord(x, zc + dz);
      assert c !in out;
      out := out + {c};
      dz := dz + 1;
    }
  }

  /** The nested loops that fill the desired set, offsets dx and dz from -radius to radius. */
  method DesiredChunks(center: Coord, radius: int) returns (desired: set<Coord>)
    ensures forall c :: c in desired <==> -radius <= c.x - center.x <= radius && -radius <= c.z - center.z <= radius
    ensures desired == Square(center, radius)
    ensures radius >= 0 ==> |desired| == (2 * radius + 1) * (2 * radius + 1)
  {
    desired := {};
    var side := 2 * radius + 1;
    var dx := -radius;
    while dx <= radius
      invariant radius >= 0 ==> -radius <= dx <= radius + 1
      invariant forall c :: c in desired <==> InBlock(c, center.x - radius, center.x + dx - 1, center.z - radius, center.z + radius)
      invariant radius >= 0 ==> |desired| == (dx + radius) * side
      decreases radius - dx
    {
      desired := AddColumn(desired, center.x + dx, center.z, radius);
      assert (dx + radius) * side + side == (dx + 1 + radius) * side;
      dx := dx + 1;
    }
    assert forall c :: c in desired <==> c in Square(center, radius);
  }

  /** Destroys every rock of every removed chunk. */
  method DestroyAll(removed: map<Coord, seq<Rock>>) returns (destroyed: seq<Rock>)
    ensures forall k, rk :: k in removed && rk in removed[k] ==> rk in destroyed
    ensures forall rk :: rk in destroyed ==> exists k :: k in removed && rk in removed[k]
    ensures removed == map[] ==> destroyed == []
  {
    destroyed := [];
    var keys := removed.Keys;
    while keys != {}
      invariant keys <= removed.Keys
      invariant forall k, rk :: k in removed.Keys - keys && rk in removed[k] ==> rk in destroyed
      invariant forall rk :: rk in destroyed ==> exists k :: k in removed && rk in removed[k]
      invariant removed == map[] ==> destroyed == []
      decreases keys
    {
      var k :| k in keys;
      destroyed := destroyed + removed[k];
      keys := keys - {k};
    }
  }

  /** The spawn pass: every desired chunk missing from the lookup is filled; None if a fill threw. */
  method SpawnMissing(cfg: Config, draws: (Coord, nat) -> Attempt, chunks: map<Coord, seq<Rock>>, desired: set<Coord>)
    returns (result: Option<map<Coord, seq<Rock>>>)
    ensures result.None? <==> exists c :: c in desired && c !in chunks && SpawnChunk(cfg, draws, c).None?
    ensures result.Some? ==> result.value.Keys == chunks.Keys + desired
    ensures result.Some? ==> forall c :: c in chunks ==> result.value[c] == chunks[c]
    ensures result.Some? ==> forall c :: c in desired && c !in chunks ==> Some(result.value[c]) == SpawnChunk(cfg, draws, c)
  {
    var grown := chunks;
    var todo := desired;
    while todo != {}
      invariant todo <= desired
      invariant grown.Keys == chunks.Keys + (desired - todo)
      invariant forall c :: c in chunks ==> grown[c] == chunks[c]
      invariant forall c :: c in desired - todo && c !in chunks ==> Some(grown[c]) == SpawnChunk(cfg, draws, c)
      decreases todo
    {
      var c :| c in todo;
      if c !in grown {
        var rocks := SpawnChunk(cfg, draws, c);
        if rocks.None? {
          return None;
        }
        grown := grown[c := rocks.value];
      }
      todo := todo - {c};
    }
    result := Some(grown);
  }

  /** The reconcile of UpdateChunks against a computed desired set: spawn the missing chunks,
      then destroy and drop every chunk that is not desired. */
  method ReconcileChunks(cfg: Config, draws: (Coord, nat) -> Attempt, chunks: map<Coord, seq<Rock>>, desired: set<Coord>)
    returns (result: Option<map<Coord, seq<Rock>>>, destroyed: seq<Rock>)
    ensures result.None? <==> exists c :: c in desired && c !in chunks && SpawnChunk(cfg, draws, c).None?
    ensures result.Some? ==> result.value.Keys == desired
    ensures result.Some? ==> forall c :: c in chunks && c in desired ==> result.value[c] == chunks[c]
    ensures result.Some? ==> forall c :: c in desired && c !in chunks ==> Some(result.value[c]) == SpawnChunk(cfg, draws, c)
    ensures result.Some? ==> forall k, rk :: k in chunks && k !in desired && rk in chunks[k] ==> rk in destroyed
    ensures forall rk :: rk in destroyed ==> exists k :: k in chunks && k !in desired && rk in chunks[k]
    ensures chunks.Keys == desired ==> result == Some(chunks) && destroyed == []
  {
    destroyed := [];
    var grown := SpawnMissing(cfg, draws, chunks, desired);
    if grown.None? {
      return None, [];
    }
    var kept, removed := Streaming.RemoveOutside(grown.value, desired);
    destroyed := DestroyAll(removed);
    result := Some(kept);
    if chunks.Keys == desired {
      assert removed == map[];
      assert kept == chunks;
    }
  }

  /** One UpdateChunks call, with the camera position or None when there is no camera.
      Returns the new chunk lookup (None when a fill threw) and the rocks destroyed. */
  method UpdateChunks(cfg: Config, draws: (Coord, nat) -> Attempt, chunks: map<Coord, seq<Rock>>, camera: Option<Vec3>)
    returns (result: Option<map<Coord, seq<Rock>>>, destroyed: seq<Rock>)
    requires cfg.chunkSize != 0.0
    ensures camera.None? ==> result == Some(chunks) && destroyed == []
    ensures camera.Some? ==>
      var want := Square(CenterChunk(cfg, camera.value), cfg.spawnRadiusInChunks);
      && (result.None? <==> exists c :: c in want && c !in chunks && SpawnChunk(cfg, draws, c).None?)
      && (result.Some? ==> result.value.Keys == want)
      && (result.Some? ==> forall c :: c in chunks && c in want ==> result.value[c] == chunks[c])
      && (result.Some? ==> forall c :: c in want && c !in chunks ==> Some(result.value[c]) == SpawnChunk(cfg, draws, c))
      && (result.Some? ==> forall k, rk :: k in chunks && k !in want && rk in chunks[k] ==> rk in destroyed)
      && (forall rk :: rk in destroyed ==> exists k :: k in chunks && k !in want && rk in chunks[k])
      && (chunks.Keys == want ==> result == Some(chunks) && destroyed == [])
  {
    if camera.None? {
      return Some(chunks), [];
    }
    var center := CenterChunk(cfg, camera.value);
    var desired := DesiredChunks(center, cfg.spawnRadiusInChunks);
    result, destroyed := ReconcileChunks(cfg, draws, chunks, desired);
  }
}

=== FILE: streaming.dfy ===
/** The reconcile step shared by both streamers: a map keyed by a cell index is brought
    to exactly a desired set of keys, keeping entries that are still wanted, spawning the
    missing ones and removing (destroying) every entry outside the set. */
module Streaming {

  /** The state a reconcile must reach: exactly the desired keys, old entries kept. */
  function Reconcile<K, V>(m: map<K, V>, desired: set<K>, spawn: K -> V): (r: map<K, V>)
  {
    map k | k in desired :: if k in m then m[k] else spawn(k)
  }

  /** The removal pass: every key of a snapshot of `m` that is not desired is taken out
      and handed back in `removed` so that its contents can be destroyed. */
  method RemoveOutside<K, V>(m: map<K, V>, desired: set<K>) returns (kept: map<K, V>, removed: map<K, V>)
    ensures kept.Keys == m.Keys * desired
    ensures removed.Keys == m.Keys - desired
    ensures forall k :: k in kept ==> kept[k] == m[k]
    ensures forall k :: k in removed ==> removed[k] == m[k]
  {
    kept := m;
    removed := map[];
    var keys := m.Keys;
    while keys != {}
      invariant keys <= m.Keys
      invariant kept.Keys == keys + (m.Keys - keys) * desired
      invariant removed.Keys == (m.Keys - keys) - desired
      invariant forall k :: k in kept ==> kept[k] == m[k]
      invariant forall k :: k in removed ==> removed[k] == m[k]
      decreases keys
    {
      var k :| k in keys;
      if k !in desired {
        removed := removed[k := kept[k]];
        kept := kept - {k};
      }
      keys := keys - {k};
    }
  }

  /** Reconciling twice against the same desired set spawns and removes nothing the second time. */
  lemma ReconcileIdempotent<K, V>(m: map<K, V>, desired: set<K>, spawn: K -> V)
    ensures Reconcile(m, desired, spawn).Keys == desired
    ensures Reconcile(Reconcile(m, desired, spawn), desired, spawn) == Reconcile(m, desired, spawn)
  {
  }
}

=== FILE: vehicle.dfy ===
/** The car enter/exit protocol of Assets/Scripts/EnterExitCar.cs together with the
    state-bearing parts of Assets/Scripts/PlayerController.cs: the player walks up to a car
    (trigger callbacks fill the nearby-car slot), presses E to get in and F to get out. */
module Vehicle {
  import opened Common

  type CarId = nat

  /** One MonoBehaviour component attached to a car. */
  datatype Script = Script(car: CarId, slot: nat)

  /** What the camera rig follows. */
  datatype CameraTarget = FollowPlayer | FollowCar(car: CarId)

  const EnterCarTag := "EnterCar"

  /** Threshold on the squared length of the movement direction below which it is ignored. */
  const MoveEpsilon: real := 0.001

  /** PlayerController's discrete state. `active` is the GameObject's active flag and
      `hasEnterExitScript` whether its EnterExitScript reference is assigned. */
  datatype Player = Player(
    isInCar: bool,
    active: bool,
    carToEnter: Option<CarId>,
    lastMoveDir: Vec3,
    hasEnterExitScript: bool)

  /** EnterExitCar's state. `holdsPlayer` is whether its `player` field refers to the player
      (false for null); `currentCar` is the car last entered (null before the first entry). */
  datatype Rig = Rig(holdsPlayer: bool, currentCar: Option<CarId>, isInCar: bool)

  /** Everything the protocol touches: both components, the camera's follow target and the
      set of car scripts that are enabled. */
  datatype World = World(player: Player, rig: Rig, camera: CameraTarget, enabled: set<Script>)

  /** The input one PlayerController.Update reads: the normalised movement direction and
      whether E went down this frame. */
  datatype PlayerInput = PlayerInput(moveDir: Vec3, pressedE: bool)

  /** The callbacks the engine delivers, in the order it delivers them. */
  datatype Event =
    | PlayerFrame(input: PlayerInput)
    | RigFrame(pressedF: bool)
    | TriggerStay(tag: string, parentCar: CarId)
    | TriggerExit(tag: string)

  // ---------------------------------------------------------------- PlayerController

  /** SetActive(active): the player is in a car exactly when it is deactivated. */
  function SetActive(pl: Player, active: bool): (r: Player)
    ensures r.isInCar == !active && r.active == active
    ensures r.carToEnter == pl.carToEnter && r.lastMoveDir == pl.lastMoveDir
    ensures r.hasEnterExitScript == pl.hasEnterExitScript
  {
    pl.(isInCar := !active, active := active)
  }

  /** OnTriggerStay: a trigger tagged EnterCar offers its parent car; other tags change nothing. */
  function OnTriggerStay(pl: Player, tag: string, parentCar: CarId): (r: Player)
    ensures tag == EnterCarTag ==> r == pl.(carToEnter := Some(parentCar))
    ensures tag != EnterCarTag ==> r == pl
  {
    if tag == EnterCarTag then pl.(carToEnter := Some(parentCar)) else pl
  }

  /** OnTriggerExit: leaving a trigger tagged EnterCar clears the offer; other tags change nothing. */
  function OnTriggerExit(pl: Player, tag: string): (r: Player)
    ensures tag == EnterCarTag ==> r == pl.(carToEnter := None)
    ensures tag != EnterCarTag ==> r == pl
  {
    if tag == EnterCarTag then pl.(carToEnter := None) else pl
  }

  /** The lastMoveDir update of Update: only a non-negligible direction is remembered. */
  function TrackMoveDir(pl: Player, moveDir: Vec3): (r: Player)
    ensures SqrMagnitude(moveDir) > MoveEpsilon ==> r.lastMoveDir == moveDir
    ensures SqrMagnitude(moveDir) <= MoveEpsilon ==> r.lastMoveDir == pl.lastMoveDir
    ensures r.(lastMoveDir := pl.lastMoveDir) == pl
  {
    if SqrMagnitude(moveDir) > MoveEpsilon then pl.(lastMoveDir := moveDir) else pl
  }

  // ---------------------------------------------------------------- EnterExitCar

  /** EnterCar(player, car): hide the player, follow the car, remember it and enable its scripts. */
  function EnterCar(w: World, car: CarId, scriptsOf: CarId -> set<Script>): (r: World)
    ensures r.rig == Rig(true, Some(car), true)
    ensures r.player.isInCar && !r.player.active
    ensures r.player == SetActive(w.player, false)
    ensures r.player.carToEnter == w.player.carToEnter && r.player.lastMoveDir == w.player.lastMoveDir
    ensures r.camera == FollowCar(car)
    ensures scriptsOf(car) <= r.enabled
    ensures r.enabled - scriptsOf(car) == w.enabled - scriptsOf(car)
  {
    World(SetActive(w.player, false), Rig(true, Some(car), true), FollowCar(car), w.enabled + scriptsOf(car))
  }

  /** ExitCar: with no player held, nothing happens; otherwise the player is shown again, the
      camera follows it, the car's scripts are disabled and the player reference is cleared.
      None stands for the NullReferenceException of reading currentCar while it is null. */
  function ExitCar(w: World, scriptsOf: CarId -> set<Script>): (r: Option<World>)
    ensures !w.rig.holdsPlayer ==> r == Some(w)
    ensures r.None? <==> w.rig.holdsPlayer && w.rig.currentCar.None?
    ensures r.Some? && w.rig.holdsPlayer ==>
              && !r.value.rig.holdsPlayer && !r.value.rig.isInCar
              && r.value.rig.currentCar == w.rig.currentCar
              && !r.value.player.isInCar && r.value.player.active
              && r.value.player == SetActive(w.player, true)
              && r.value.player.carToEnter == w.player.carToEnter
              && r.value.camera == FollowPlayer
              && scriptsOf(w.rig.currentCar.value) !! r.value.enabled
              && r.value.enabled + scriptsOf(w.rig.currentCar.value) == w.enabled + scriptsOf(w.rig.currentCar.value)
  {
    if !w.rig.holdsPlayer then Some(w)
    else match w.rig.currentCar
      case None => None
      case Some(car) =>
        Some(World(SetActive(w.player, true), Rig(false, Some(car), false), FollowPlayer, w.enabled - scriptsOf(car)))
  }

  /** EnterExitCar.Update: F triggers an exit only while in the car. */
  function RigUpdate(w: World, pressedF: bool, scriptsOf: CarId -> set<Script>): (r: Option<World>)
    ensures !(w.rig.isInCar && pressedF) ==> r == Some(w)
    ensures w.rig.isInCar && pressedF ==> r == ExitCar(w, scriptsOf)
  {
    if w.rig.isInCar && pressedF then ExitCar(w, scriptsOf) else Some(w)
  }

  /** PlayerController.Update: nothing while in a car; otherwise remember the movement
      direction and, on E with a car offered and the script assigned, enter it. */
  function PlayerUpdate(w: World, input: PlayerInput, scriptsOf: CarId -> set<Script>): (r: World)
    ensures w.player.isInCar ==> r == w
    ensures !w.player.isInCar ==>
              (r.player.isInCar <==> input.pressedE && w.player.carToEnter.Some? && w.player.hasEnterExitScript)
    ensures !w.player.isInCar && r.player.isInCar ==>
              r.camera == FollowCar(w.player.carToEnter.value) && r.rig.currentCar == w.player.carToEnter
    ensures !w.player.isInCar && r.player.isInCar ==>
              r == EnterCar(w.(player := TrackMoveDir(w.player, input.moveDir)), w.player.carToEnter.value, scriptsOf)
    ensures !w.player.isInCar && !r.player.isInCar ==> r == w.(player := TrackMoveDir(w.player, input.moveDir))
  {
    if w.player.isInCar then w
    else
      var w1 := w.(player := TrackMoveDir(w.player, input.moveDir));
      if input.pressedE && w1.player.carToEnter.Some? && w1.player.hasEnterExitScript then
        EnterCar(w1, w1.player.carToEnter.value, scriptsOf)
      else w1
  }

  /** Dispatch of one engine callback; None when it throws, which only an exit can do. */
  function Step(w: World, e: Event, scriptsOf: CarId -> set<Script>): (r: Option<World>)
    ensures r.None? <==> e.RigFrame? && e.pressedF && w.rig.isInCar && w.rig.holdsPlayer && w.rig.currentCar.None?
    ensures e.TriggerStay? || e.TriggerExit? ==>
              r.Some? && r.value == w.(player := w.player.(carToEnter := r.value.player.carToEnter))
    ensures e.TriggerStay? && e.tag == EnterCarTag ==> r.value.player.carToEnter == Some(e.parentCar)
    ensures e.TriggerExit? && e.tag == EnterCarTag ==> r.value.player.carToEnter.None?
    ensures (e.TriggerStay? || e.TriggerExit?) && e.tag != EnterCarTag ==> r == Some(w)
    ensures e.RigFrame? && !(e.pressedF && w.rig.isInCar) ==> r == Some(w)
    ensures e.PlayerFrame? && w.player.isInCar ==> r == Some(w)
    ensures e.PlayerFrame? ==> r.Some? && r.value.enabled >= w.enabled
  {
    match e
    case PlayerFrame(input) => Some(PlayerUpdate(w, input, scriptsOf))
    case RigFrame(pressedF) => RigUpdate(w, pressedF, scriptsOf)
    case TriggerStay(tag, parentCar) => Some(w.(player := OnTriggerStay(w.player, tag, parentCar)))
    case TriggerExit(tag) => Some(w.(player := OnTriggerExit(w.player, tag)))
  }

  // ---------------------------------------------------------------- the invariant

  /** The two components agree on whether the player is in a car; a held player implies a
      current car; the camera and the car scripts match that state. */
  ghost predicate Inv(w: World, scriptsOf: CarId -> set<Script>)
  {
    && (w.rig.holdsPlayer ==> w.rig.currentCar.Some?)
    && w.rig.isInCar == w.rig.holdsPlayer
    && w.player.isInCar == w.rig.holdsPlayer
    && w.player.active == !w.player.isInCar
    && (w.rig.isInCar ==> w.camera == FollowCar(w.rig.currentCar.value) && scriptsOf(w.rig.currentCar.value) <= w.enabled)
    && (!w.rig.isInCar ==> w.camera == FollowPlayer)
  }

  /** The start of play: on foot, no car offered, camera on the player, EnterExitCar holding
      nothing, and the car scripts in whatever state the scene gave them. */
  function Init(hasEnterExitScript: bool, enabled: set<Script>): (w: World)
    ensures !w.player.isInCar && w.player.active && w.camera == FollowPlayer
    ensures !w.rig.holdsPlayer && !w.rig.isInCar && w.rig.currentCar.None?
    ensures w.player.carToEnter.None? && w.enabled == enabled
  {
    World(Player(false, true, None, Vec3(0.0, 0.0, 1.0), hasEnterExitScript), Rig(false, None, false), FollowPlayer, enabled)
  }

  lemma InitEstablishesInv(hasEnterExitScript: bool, enabled: set<Script>, scriptsOf: CarId -> set<Script>)
    ensures Inv(Init(hasEnterExitScript, enabled), scriptsOf)
  {
  }

  /** Every callback keeps the invariant and never throws: in particular ExitCar's read of
      currentCar is always on a non-null car. */
  lemma StepPreservesInv(w: World, e: Event, scriptsOf: CarId -> set<Script>)
    requires Inv(w, scriptsOf)
    ensures Step(w, e, scriptsOf).Some?
    ensures Inv(Step(w, e, scriptsOf).value, scriptsOf)
  {
  }

  /** The callbacks delivered in order, stopping at the first that throws. */
  function Run(w: World, events: seq<Event>, scriptsOf: CarId -> set<Script>): (r: Option<World>)
    decreases |events|
  {
    if |events| == 0 then Some(w)
    else match Step(w, events[0], scriptsOf)
      case None => None
      case Some(w1) => Run(w1, events[1..], scriptsOf)
  }

  /** From the start of play, no sequence of callbacks throws or breaks the invariant. */
  lemma {:induction false} RunPreservesInv(w: World, events: seq<Event>, scriptsOf: CarId -> set<Script>)
    requires Inv(w, scriptsOf)
    ensures Run(w, events, scriptsOf).Some?
    ensures Inv(Run(w, events, scriptsOf).value, scriptsOf)
    decreases |events|
  {
    if |events| > 0 {
      StepPreservesInv(w, events[0], scriptsOf);
      RunPreservesInv(Step(w, events[0], scriptsOf).value, events[1..], scriptsOf);
    }
  }

  /** A second ExitCar after an exit changes nothing. */
  lemma ExitCarIdempotent(w: World, scriptsOf: CarId -> set<Script>)
    requires ExitCar(w, scriptsOf).Some?
    ensures ExitCar(ExitCar(w, scriptsOf).value, scriptsOf) == ExitCar(w, scriptsOf)
  {
  }

  /** Entering a car from foot and exiting again puts the player back on foot and visible,
      the camera back on the player, the car's scripts disabled and every other script as it was. */
  lemma EnterThenExit(w: World, car: CarId, scriptsOf: CarId -> set<Script>)
    requires Inv(w, scriptsOf)
    requires !w.player.isInCar
    ensures ExitCar(EnterCar(w, car, scriptsOf), scriptsOf).Some?
    ensures ExitCar(EnterCar(w, car, scriptsOf), scriptsOf).value ==
              w.(rig := Rig(false, Some(car), false), enabled := w.enabled - scriptsOf(car))
  {
  }
}

=== FILE: weapon.dfy ===
/** The swing logic of Assets/Scripts/TelekineticWeaponController.cs: per frame, the hit
    effect toggle, the rotation speed choice, the swing timer, the stretch target and the
    sweep that gives each enemy collider at most one knockback impulse per swing. */
module Weapon {
  import opened Common

  type ColliderId = nat

  /** Unity's Mathf.Epsilon, the smallest positive single-precision value (1.401298e-45). */
  const FloatEpsilon: real := 0.000000000000000000000000000000000000000000001401298

  datatype Params = Params(
    maxSwingDuration: real,
    defaultRotationSmoothSpeed: real,
    actionRotationSmoothSpeed: real,
    lengthMultiplier: real,
    maxExtraLength: real,
    knockbackMultiplier: real,
    minKnockback: real,
    maxKnockback: real)

  /** The controller's discrete state: whether a weapon instance and a hit effect exist,
      whether the effect is playing, the current rotation smoothing speed, the swing timer
      and the colliders already hit in this swing. */
  datatype State = State(
    hasInstance: bool,
    hasEffect: bool,
    effectPlaying: bool,
    rotationSmoothSpeed: real,
    swingTimer: real,
    hitThisSwing: set<ColliderId>)

  /** One LateUpdate's inputs: whether the action button is held, Time.deltaTime, how far the
      weapon moved from its previous position to its smoothed new one, and the colliders that
      the sphere cast along that path returned, in order. */
  datatype Frame = Frame(isAction: bool, deltaTime: real, moved: real, hits: seq<ColliderId>)

  predicate ValidFrame(f: Frame)
  {
    f.deltaTime > 0.0 && f.moved >= 0.0
  }

  /** A knockback impulse of the given magnitude applied to a collider's rigidbody. */
  datatype Impulse = Impulse(collider: ColliderId, magnitude: real)

  /** The frame's effects: the new state, the impulses applied, and the stretch target
      (extra Z length) when the swing branch ran. */
  datatype FrameResult = FrameResult(state: State, impulses: seq<Impulse>, stretch: Option<real>)

  /** The state after Start. The instance exists iff a prefab is assigned; the hit effect is then
      whatever particle system the instance holds, else the inspector's reference stays. The
      rotation speed starts at its default, the timer at zero and the hit set empty. */
  function Init(p: Params, hasPrefab: bool, instanceHasEffect: bool, assignedEffect: bool, effectPlaying: bool): (s: State)
    ensures s.hasInstance == hasPrefab
    ensures s.hasEffect == (if hasPrefab then instanceHasEffect else assignedEffect)
    ensures s.rotationSmoothSpeed == p.defaultRotationSmoothSpeed
    ensures s.swingTimer == 0.0 && s.hitThisSwing == {}
  {
    State(hasPrefab, if hasPrefab then instanceHasEffect else assignedEffect, effectPlaying,
          p.defaultRotationSmoothSpeed, 0.0, {})
  }

  // ---------------------------------------------------------------- Mathf helpers

  /** Mathf.Min(a, b), which returns b unless a < b. */
  function Min(a: real, b: real): (r: real)
    ensures r <= b && (r == a || r == b)
    ensures a < b ==> r == a
  {
    if a < b then a else b
  }

  /** Mathf.Clamp(value, lo, hi): below lo gives lo, else above hi gives hi. */
  function Clamp(value: real, lo: real, hi: real): (r: real)
    ensures lo <= hi ==> lo <= r <= hi
    ensures lo <= value <= hi ==> r == value
    ensures r == value || r == lo || r == hi
  {
    if value < lo then lo else if value > hi then hi else value
  }

  // ---------------------------------------------------------------- stretch and knockback

  /** UpdateSwingScale's extra Z length: the speed times lengthMultiplier, capped at maxExtraLength. */
  function SwingExtra(p: Params, moved: real, dt: real): (extra: real)
    requires dt > 0.0
    ensures extra <= p.maxExtraLength
    ensures moved / dt * p.lengthMultiplier < p.maxExtraLength ==> extra == moved / dt * p.lengthMultiplier
    ensures moved / dt * p.lengthMultiplier >= p.maxExtraLength ==> extra == p.maxExtraLength
  {
    Min(moved / dt * p.lengthMultiplier, p.maxExtraLength)
  }

  /** The knockback magnitude for a sweep of length `moved` in a frame of length dt. */
  function Knockback(p: Params, moved: real, dt: real): (kb: real)
    requires dt > 0.0
    ensures p.minKnockback <= p.maxKnockback ==> p.minKnockback <= kb <= p.maxKnockback
    ensures p.minKnockback <= moved / dt * p.knockbackMultiplier <= p.maxKnockback ==> kb == moved / dt * p.knockbackMultiplier
    ensures moved / dt * p.knockbackMultiplier < p.minKnockback ==> kb == p.minKnockback
    ensures p.minKnockback <= moved / dt * p.knockbackMultiplier && moved / dt * p.knockbackMultiplier > p.maxKnockback ==>
              kb == p.maxKnockback
  {
    Clamp(moved / dt * p.knockbackMultiplier, p.minKnockback, p.maxKnockback)
  }

  // ---------------------------------------------------------------- the sweep

  function Colliders(hits: seq<ColliderId>): (cs: set<ColliderId>)
  {
    set i | 0 <= i < |hits| :: hits[i]
  }

  function ImpulseColliders(imps: seq<Impulse>): (cs: set<ColliderId>)
  {
    set k | 0 <= k < |imps| :: imps[k].collider
  }

  predicate DistinctColliders(imps: seq<Impulse>)
  {
    forall a, b :: 0 <= a < b < |imps| ==> imps[a].collider != imps[b].collider
  }

  datatype SweepResult = SweepResult(hitThisSwing: set<ColliderId>, impulses: seq<Impulse>)

  /** The loop over the sphere-cast hits: a collider not yet hit in this swing is recorded and,
      when it has a rigidbody, receives one impulse of magnitude kb. */
  function SweepHits(seen: set<ColliderId>, hits: seq<ColliderId>, kb: real, hasBody: ColliderId -> bool): (r: SweepResult)
    ensures r.hitThisSwing == seen + Colliders(hits)
    ensures ImpulseColliders(r.impulses) == set c | c in Colliders(hits) - seen && hasBody(c)
    ensures DistinctColliders(r.impulses)
    ensures forall k :: 0 <= k < |r.impulses| ==> r.impulses[k].collider !in seen && r.impulses[k].magnitude == kb
    decreases |hits|
  {
    if |hits| == 0 then SweepResult(seen, [])
    else
      var c := hits[0];
      CollidersCons(hits);
      if c in seen then SweepHits(seen, hits[1..], kb, hasBody)
      else
        var rest := SweepHits(seen + {c}, hits[1..], kb, hasBody);
        var mine := if hasBody(c) then [Impulse(c, kb)] else [];
        ImpulseCollidersConcat(mine, rest.impulses);
        assert ImpulseColliders(mine) == if hasBody(c) then {c} else {} by {
          if hasBody(c) {
            assert mine[0].collider == c;
          }
        }
        NewBodiesSplit(seen, c, Colliders(hits[1..]), hasBody);
        SweepResult(rest.hitThisSwing, mine + rest.impulses)
  }

  lemma CollidersCons(hits: seq<ColliderId>)
    requires |hits| > 0
    ensures Colliders(hits) == {hits[0]} + Colliders(hits[1..])
  {
    assert forall i :: 0 < i < |hits| ==> hits[i] == hits[1..][i - 1];
    assert forall j :: 0 <= j < |hits| - 1 ==> hits[1..][j] == hits[j + 1];
  }

  /** The new colliders with a rigidbody among c and the rest: c itself when it qualifies,
      then those of the rest that are neither seen nor c. */
  lemma NewBodiesSplit(seen: set<ColliderId>, c: ColliderId, rest: set<ColliderId>, hasBody: ColliderId -> bool)
    requires c !in seen
    ensures (set d | d in ({c} + rest) - seen && hasBody(d))
         == (if hasBody(c) then {c} else {}) + (set d | d in rest - (seen + {c}) && hasBody(d))
  {
  }

  lemma ImpulseCollidersConcat(a: seq<Impulse>, b: seq<Impulse>)
    ensures ImpulseColliders(a + b) == ImpulseColliders(a) + ImpulseColliders(b)
  {
    var all := a + b;
    forall c | c in ImpulseColliders(all)
      ensures c in ImpulseColliders(a) + ImpulseColliders(b)
    {
      var k :| 0 <= k < |all| && all[k].collider == c;
      if k < |a| {
        assert all[k] == a[k];
      } else {
        assert all[k] == b[k - |a|];
      }
    }
    forall c | c in ImpulseColliders(a) + ImpulseColliders(b)
      ensures c in ImpulseColliders(all)
    {
      if c in ImpulseColliders(a) {
        var k :| 0 <= k < |a| && a[k].collider == c;
        assert all[k] == a[k];
      } else {
        var k :| 0 <= k < |b| && b[k].collider == c;
        assert all[k + |a|] == b[k];
      }
    }
  }

  /** FakeCollisionSweep: a sweep shorter than Mathf.Epsilon does nothing. */
  function Sweep(p: Params, seen: set<ColliderId>, f: Frame, hasBody: ColliderId -> bool): (r: SweepResult)
    requires ValidFrame(f)
    ensures f.moved < FloatEpsilon ==> r == SweepResult(seen, [])
    ensures f.moved >= FloatEpsilon ==> r.hitThisSwing == seen + Colliders(f.hits)
    ensures f.moved >= FloatEpsilon ==>
              ImpulseColliders(r.impulses) == set c | c in Colliders(f.hits) - seen && hasBody(c)
    ensures seen <= r.hitThisSwing
    ensures DistinctColliders(r.impulses)
    ensures forall k :: 0 <= k < |r.impulses| ==>
              r.impulses[k].collider !in seen && r.impulses[k].collider in r.hitThisSwing
              && r.impulses[k].magnitude == Knockback(p, f.moved, f.deltaTime)
  {
    if f.moved < FloatEpsilon then SweepResult(seen, [])
    else
      var r := SweepHits(seen, f.hits, Knockback(p, f.moved, f.deltaTime), hasBody);
      assert forall k :: 0 <= k < |r.impulses| ==> r.impulses[k].collider in ImpulseColliders(r.impulses);
      r
  }

  // ---------------------------------------------------------------- one frame

  /** Whether this frame starts a new swing, which is when the hit set is cleared. */
  predicate StartsSwing(p: Params, s: State, f: Frame)
  {
    Swinging(p, s, f) && s.swingTimer == 0.0
  }

  /** Whether this frame runs the swing branch: the button is held and the timer is below the limit. */
  predicate Swinging(p: Params, s: State, f: Frame)
  {
    s.hasInstance && f.isAction && s.swingTimer < p.maxSwingDuration
  }

  /** The colliders already hit before the sweep of a swing frame: none at a swing start. */
  function SeenBefore(s: State): (seen: set<ColliderId>)
  {
    if s.swingTimer == 0.0 then {} else s.hitThisSwing
  }

  /** One LateUpdate. */
  function Step(p: Params, s: State, f: Frame, hasBody: ColliderId -> bool): (r: FrameResult)
    requires ValidFrame(f)
    ensures !s.hasInstance ==> r == FrameResult(s, [], None)
    ensures r.state.hasInstance == s.hasInstance && r.state.hasEffect == s.hasEffect
    ensures s.hasInstance && s.hasEffect ==> r.state.effectPlaying == (f.isAction && s.swingTimer < p.maxSwingDuration)
    ensures !s.hasEffect ==> r.state.effectPlaying == s.effectPlaying
    ensures s.hasInstance ==>
              r.state.rotationSmoothSpeed == (if f.isAction then p.actionRotationSmoothSpeed else p.defaultRotationSmoothSpeed)
    ensures s.hasInstance && !f.isAction ==> r.state.swingTimer == 0.0
    ensures f.isAction && s.swingTimer >= p.maxSwingDuration ==>
              r.state.swingTimer == s.swingTimer && r.state.hitThisSwing == s.hitThisSwing && r.impulses == [] && r.stretch.None?
    ensures Swinging(p, s, f) ==>
              r.state.swingTimer == s.swingTimer + f.deltaTime && r.stretch.Some? && r.stretch.value <= p.maxExtraLength
    ensures Swinging(p, s, f) ==> r.stretch == Some(SwingExtra(p, f.moved, f.deltaTime))
    ensures Swinging(p, s, f) && f.moved >= FloatEpsilon ==>
              r.state.hitThisSwing == SeenBefore(s) + Colliders(f.hits)
              && ImpulseColliders(r.impulses) == set c | c in Colliders(f.hits) - SeenBefore(s) && hasBody(c)
    ensures Swinging(p, s, f) && f.moved < FloatEpsilon ==> r.state.hitThisSwing == SeenBefore(s)
    ensures !StartsSwing(p, s, f) ==> s.hitThisSwing <= r.state.hitThisSwing
    ensures StartsSwing(p, s, f) ==> r.state.hitThisSwing == Colliders(f.hits) || f.moved < FloatEpsilon
    ensures f.isAction ==> r.state.swingTimer >= s.swingTimer
    ensures r.impulses != [] ==> r.state.swingTimer > s.swingTimer
    ensures f.moved < FloatEpsilon ==> r.impulses == []
    ensures DistinctColliders(r.impulses)
    ensures forall k :: 0 <= k < |r.impulses| ==> r.impulses[k].collider in r.state.hitThisSwing
    ensures s.swingTimer != 0.0 ==> forall k :: 0 <= k < |r.impulses| ==> r.impulses[k].collider !in s.hitThisSwing
    ensures p.minKnockback <= p.maxKnockback ==>
              forall k :: 0 <= k < |r.impulses| ==> p.minKnockback <= r.impulses[k].magnitude <= p.maxKnockback
    ensures forall k :: 0 <= k < |r.impulses| ==> r.impulses[k].magnitude == Knockback(p, f.moved, f.deltaTime)
    ensures !Swinging(p, s, f) ==> r.impulses == [] && r.stretch.None? && r.state.hitThisSwing == s.hitThisSwing
  {
    if !s.hasInstance then FrameResult(s, [], None)
    else
      var playing := if s.hasEffect then f.isAction && s.swingTimer < p.maxSwingDuration else s.effectPlaying;
      var rot := if f.isAction then p.actionRotationSmoothSpeed else p.defaultRotationSmoothSpeed;
      if Swinging(p, s, f) then
        var sw := Sweep(p, SeenBefore(s), f, hasBody);
        assert StartsSwing(p, s, f) && f.moved >= FloatEpsilon ==> sw.hitThisSwing == Colliders(f.hits);
        FrameResult(
          State(true, s.hasEffect, playing, rot, s.swingTimer + f.deltaTime, sw.hitThisSwing),
          sw.impulses,
          Some(SwingExtra(p, f.moved, f.deltaTime)))
      else
        FrameResult(
          s.(effectPlaying := playing, rotationSmoothSpeed := rot, swingTimer := if f.isAction then s.swingTimer else 0.0),
          [],
          None)
  }

  /** ReleaseWeapon: the instance is destroyed, after which every frame is a no-op. */
  function ReleaseWeapon(s: State): (r: State)
    ensures !r.hasInstance
    ensures r.(hasInstance := s.hasInstance) == s
  {
    s.(hasInstance := false)
  }

  // ---------------------------------------------------------------- runs of frames

  predicate ValidFrames(frames: seq<Frame>)
  {
    forall i :: 0 <= i < |frames| ==> ValidFrame(frames[i])
  }

  predicate AllHeld(frames: seq<Frame>)
  {
    forall i :: 0 <= i < |frames| ==> frames[i].isAction
  }

  datatype RunResult = RunResult(state: State, impulses: seq<Impulse>)

  /** A sequence of LateUpdates, collecting every impulse applied. */
  function Run(p: Params, s: State, frames: seq<Frame>, hasBody: ColliderId -> bool): (r: RunResult)
    requires ValidFrames(frames)
    decreases |frames|
  {
    if |frames| == 0 then RunResult(s, [])
    else
      var r := Step(p, s, frames[0], hasBody);
      var rest := Run(p, r.state, frames[1..], hasBody);
      RunResult(rest.state, r.impulses + rest.impulses)
  }

  /** Two impulse lists with distinct colliders stay distinct when joined, provided every
      collider of the first lies in a set that no collider of the second does. */
  lemma DistinctConcat(a: seq<Impulse>, b: seq<Impulse>, hit: set<ColliderId>)
    requires DistinctColliders(a) && DistinctColliders(b)
    requires forall k :: 0 <= k < |a| ==> a[k].collider in hit
    requires forall k :: 0 <= k < |b| ==> b[k].collider !in hit
    ensures DistinctColliders(a + b)
  {
    var all := a + b;
    forall x, y | 0 <= x < y < |all|
      ensures all[x].collider != all[y].collider
    {
      if y < |a| {
        assert all[x] == a[x] && all[y] == a[y];
      } else if x < |a| {
        assert all[x] == a[x] && all[y] == b[y - |a|];
      } else {
        assert all[x] == b[x - |a|] && all[y] == b[y - |a|];
      }
    }
  }

  lemma AvoidsConcat(a: seq<Impulse>, b: seq<Impulse>, hit: set<ColliderId>)
    requires forall k :: 0 <= k < |a| ==> a[k].collider !in hit
    requires forall k :: 0 <= k < |b| ==> b[k].collider !in hit
    ensures forall k :: 0 <= k < |a + b| ==> (a + b)[k].collider !in hit
  {
    forall k | 0 <= k < |a + b|
      ensures (a + b)[k].collider !in hit
    {
      if k >= |a| {
        assert (a + b)[k] == b[k - |a|];
      }
    }
  }

  lemma HeldTail(frames: seq<Frame>)
    requires |frames| > 0 && ValidFrames(frames) && AllHeld(frames)
    ensures ValidFrame(frames[0]) && frames[0].isAction
    ensures ValidFrames(frames[1..]) && AllHeld(frames[1..])
  {
    assert forall i :: 0 <= i < |frames| - 1 ==> frames[1..][i] == frames[i + 1];
  }

  /** Within one swing (the button held on every frame) each collider receives at most one
      impulse; once the swing is under way, none of them was already hit earlier in it. */
  lemma {:induction false} OneImpulsePerSwing(p: Params, s: State, frames: seq<Frame>, hasBody: ColliderId -> bool)
    requires ValidFrames(frames) && AllHeld(frames)
    requires s.swingTimer >= 0.0
    ensures DistinctColliders(Run(p, s, frames, hasBody).impulses)
    ensures s.swingTimer > 0.0 ==>
              forall k :: 0 <= k < |Run(p, s, frames, hasBody).impulses| ==>
                Run(p, s, frames, hasBody).impulses[k].collider !in s.hitThisSwing
    decreases |frames|
  {
    if |frames| > 0 {
      HeldTail(frames);
      var r := Step(p, s, frames[0], hasBody);
      var tail := frames[1..];
      OneImpulsePerSwing(p, r.state, tail, hasBody);
      var rest := Run(p, r.state, tail, hasBody);
      assert Run(p, s, frames, hasBody).impulses == r.impulses + rest.impulses;
      if r.impulses != [] {
        DistinctConcat(r.impulses, rest.impulses, r.state.hitThisSwing);
      }
      if s.swingTimer > 0.0 {
        AvoidsConcat(r.impulses, rest.impulses, s.hitThisSwing);
      }
    }
  }

  /** Holding the button at or past maxSwingDuration freezes the swing: the timer and the
      hit set stay as they are and no further impulse is applied until release. */
  lemma {:induction false} HeldPastMaxIsInert(p: Params, s: State, frames: seq<Frame>, hasBody: ColliderId -> bool)
    requires ValidFrames(frames) && AllHeld(frames)
    requires s.swingTimer >= p.maxSwingDuration
    ensures Run(p, s, frames, hasBody).impulses == []
    ensures Run(p, s, frames, hasBody).state.swingTimer == s.swingTimer
    ensures Run(p, s, frames, hasBody).state.hitThisSwing == s.hitThisSwing
    decreases |frames|
  {
    if |frames| > 0 {
      HeldTail(frames);
      var r := Step(p, s, frames[0], hasBody);
      HeldPastMaxIsInert(p, r.state, frames[1..], hasBody);
    }
  }

  /** From the state Start leaves, a first swing held for any number of frames gives each
      collider at most one impulse. */
  lemma FirstSwingOneImpulseEach(p: Params, hasPrefab: bool, instanceHasEffect: bool, assignedEffect: bool,
                                 effectPlaying: bool, frames: seq<Frame>, hasBody: ColliderId -> bool)
    requires ValidFrames(frames) && AllHeld(frames)
    ensures DistinctColliders(Run(p, Init(p, hasPrefab, instanceHasEffect, assignedEffect, effectPlaying), frames, hasBody).impulses)
  {
    OneImpulsePerSwing(p, Init(p, hasPrefab, instanceHasEffect, assignedEffect, effectPlaying), frames, hasBody);
  }

  /** Releasing the button ends the swing: the next press starts a fresh one with an empty hit set. */
  lemma ReleaseStartsFreshSwing(p: Params, s: State, release: Frame, press: Frame, hasBody: ColliderId -> bool)
    requires ValidFrame(release) && ValidFrame(press)
    requires s.hasInstance && !release.isAction && press.isAction
    requires 0.0 < p.maxSwingDuration
    ensures Step(p, s, release, hasBody).state.swingTimer == 0.0
    ensures StartsSwing(p, Step(p, s, release, hasBody).state, press)
    ensures press.moved >= FloatEpsilon ==>
              Step(p, Step(p, s, release, hasBody).state, press, hasBody).state.hitThisSwing == Colliders(press.hits)
  {
  }
}
